=== FILE: README.md ===
# Smart Expense Splitter ledger, in Dafny

A model of the ledger at the heart of the Java expense splitter: how an
expense is split into debt rows, how the net balance of every user is folded
together from expenses, split rows and settlements, how the console report
classifies each balance, and the small arithmetic and string helpers.
Every piece is a pure function over immutable records; the database reads
become input sequences.

Files (one module each):

- `records.dfy` (`Records`): the `Expense`, `ExpenseSplit` and `Settlement` records and their
  "new record" constructors (id −1).
- `math_operations.dfy` (`MathOperations`): 32-bit wrapping `add`/`subtract`/`multiply`, and the
  `divide` and `calculateSplit` helpers.
- `string_utility.dfy` (`StringUtility`): `reverseString`, with `null` as `None`.
- `expense_repository.dfy` (`ExpenseRepository`): the equal-split rule of
  `splitExpenseAndRecordDebts` and `listExpenseSplits` as a filter over a split table.
- `balance_service.dfy` (`BalanceService`): `calculateNetBalances` as a fold (`RawBalances`,
  `NetBalances`) and as the loops of the Java method (`CalculateNetBalances`), with a
  per-user reference balance (`UserBalance`) as the independent definition the fold is
  proved equal to.
- `app.dfy` (`App`): `printNetBalances`, the text it prints, and the demo run of `main`.
- `folds.dfy` (`Folds`), `wrappers.dfy` (`Wrappers`): sums over sequences, totals of maps, `Option`.

Amounts are `real`. A balance map is `map<int, real>`; an absent user has balance zero.
Positive means the user is owed money, negative that the user owes money.

## What the code does with the payer's own share

The payer of an expense is credited the *full* amount
(src/main/java/com/app/BalanceService.java:42-44). Split rows are recorded only for
listed members other than the payer, but the share divides by the whole list,
payer included (src/main/java/com/app/ExpenseRepository.java:62-69). So when the
payer is in the member list, the balances do not add up to zero: the payer's own
share stays credited to the payer. The demo run's comments speak of Bob owing
$45.00 (src/main/java/com/app/App.java:59) and of Bob paying Alice "the owed amount"
(src/main/java/com/app/App.java:72), so one might expect nobody to be left with a
balance after that payment. The model follows the code:

- `BalanceService.EqualSplitConservation` proves, for a ledger of one equally split expense
  and any settlements, that the balances add up to zero exactly when the payer is not among
  the members; `BalanceService.RawTotalZeroIff` states the same for many expenses in terms of
  each expense's split rows.
- `App.DemoBalancesAfterSettlement` proves that in the demo (Alice, user 1, pays 90.00
  split over [1, 6]; Bob, user 6, pays back 45.00) Alice ends at +45.00, not at zero. The
  split table it folds is the demo's one split row read back with whatever id the database
  gave it (`App.DemoSplitReadBack`).
- `App.DemoFinalReport` calls `App.PrintNetBalances` on those final balances and proves that the
  report renders as `User ID 1: IS OWED $45.00` (in a locale that writes '.' and ASCII digits)
  rather than as the settled message.

## Model

| member | source | states |
|---|---|---|
| Records.NewExpense | src/main/java/com/app/Expense.java:20-26 | A new expense has id −1 and keeps amount, description, payer and date as given |
| Records.NewExpenseSplit | src/main/java/com/app/ExpenseSplit.java:18-23 | A new split row has id −1 and keeps expense id, member and owed amount as given |
| Records.NewSettlement | src/main/java/com/app/Settlement.java:20-27 | A new settlement has id −1, keeps group, payer, receiver and amount, and is stamped with the given time |
| Records.WithAssignedId | src/main/java/com/app/Expense.java:31-37 | The retrieval constructor stores the given id; it differs from the new-expense constructor in the id only |
| Records.SplitWithAssignedId | src/main/java/com/app/ExpenseSplit.java:28-33 | The retrieval constructor stores the given id and otherwise equals the row created for saving |
| Records.SettlementWithAssignedId | src/main/java/com/app/Settlement.java:32-39 | The retrieval constructor stores the given id and time and otherwise equals the settlement created for saving |
| MathOperations.Wrap | src/main/java/com/app/MathOperations.java:8-10 | Two's-complement truncation: the result is congruent to the exact value mod 2^32, and equals it when that is in `int` range |
| MathOperations.WrapCongruent | src/main/java/com/app/MathOperations.java:8-10 | Values equal mod 2^32 truncate to the same `int` |
| MathOperations.Add | src/main/java/com/app/MathOperations.java:8 | `add` agrees with the exact sum mod 2^32, and equals it without overflow |
| MathOperations.Subtract | src/main/java/com/app/MathOperations.java:9 | `subtract` agrees with the exact difference mod 2^32, and equals it without overflow |
| MathOperations.Multiply | src/main/java/com/app/MathOperations.java:10 | `multiply` agrees with the exact product mod 2^32, and equals it without overflow |
| MathOperations.SubtractUndoesAdd | src/main/java/com/app/MathOperations.java:8-9 | `subtract(add(a, b), b) == a` for all `int`s, overflow included |
| MathOperations.Divide | src/main/java/com/app/MathOperations.java:12-18 | Zero for a zero denominator; otherwise the result times the denominator is the numerator |
| MathOperations.DivideByOne | src/main/java/com/app/MathOperations.java:17 | `divide(x, 1) == x` |
| MathOperations.CalculateSplit | src/main/java/com/app/MathOperations.java:23-29 | Zero when there is nobody to split among; otherwise the share times the head count is the total |
| MathOperations.CalculateSplitIsDivide | src/main/java/com/app/MathOperations.java:28 | For a positive head count the split is `divide(total, n)` |
| StringUtility.Reverse | src/main/java/com/app/StringUtility.java:12 | Same length, and character i of the result is character len−1−i of the input |
| StringUtility.ReverseString | src/main/java/com/app/StringUtility.java:8-13 | `null` exactly for `null`; otherwise the reversal |
| StringUtility.ReverseInvolutive | src/main/java/com/app/StringUtility.java:12 | Reversing twice gives back the string |
| StringUtility.ReverseStringInvolutive | src/main/java/com/app/StringUtility.java:8-13 | Reversing a nullable string twice gives it back; the empty string is its own reverse |
| ExpenseRepository.Without | src/main/java/com/app/ExpenseRepository.java:67-69 | The entries other than the payer: none equals the payer, and there are as many as the list has non-payer entries |
| ExpenseRepository.WithoutCounts | src/main/java/com/app/ExpenseRepository.java:67-75 | Every non-payer id occurs as often as in the list, duplicates included; the payer never |
| ExpenseRepository.DebtRows | src/main/java/com/app/ExpenseRepository.java:67-75 | One unsaved row per non-payer entry, in list order, carrying the expense id and the share |
| ExpenseRepository.EqualSplit | src/main/java/com/app/ExpenseRepository.java:59-76 | Nothing for an empty list or amount ≤ 0; otherwise one row per non-payer entry in order, none for the payer, each with the expense id and owing amount / list length |
| ExpenseRepository.SplitExpenseAndRecordDebts | src/main/java/com/app/ExpenseRepository.java:59-76 | The batch-filling loop builds exactly the equal-split rows |
| ExpenseRepository.SumOwedConstant | src/main/java/com/app/ExpenseRepository.java:62-75 | Rows that all owe the same share owe that share times their number |
| ExpenseRepository.SharesTotal | src/main/java/com/app/ExpenseRepository.java:62-75 | The rows owe amount × (n − payer occurrences) / n, which is the whole amount exactly when the payer is not listed |
| ExpenseRepository.EqualSplitTotal | src/main/java/com/app/ExpenseRepository.java:62-75 | An equal split's rows add up to the amount if and only if the payer is absent from the list |
| ExpenseRepository.WithoutOnlyPayer | src/main/java/com/app/ExpenseRepository.java:67-69 | Dropping the payer from a list of only the payer leaves nothing |
| ExpenseRepository.OnlyPayerYieldsNothing | src/main/java/com/app/ExpenseRepository.java:67-69 | A list holding only the payer yields no rows |
| ExpenseRepository.ListExpenseSplits | src/main/java/com/app/ExpenseRepository.java:151-172 | Exactly the table's rows for the expense id, each as often as in the table; every listed row carries that id |
| ExpenseRepository.ListExpenseSplitsPermutation | src/main/java/com/app/ExpenseRepository.java:152 | Reordering the table only reorders what is listed |
| ExpenseRepository.ListExpenseSplitsOfOneExpense | src/main/java/com/app/ExpenseRepository.java:152-165 | The rows written for one expense are read back whole and in order |
| BalanceService.Merge | src/main/java/com/app/BalanceService.java:44 | `merge(id, delta, Double::sum)` adds delta to that user, creates the entry if needed, and changes nobody else |
| BalanceService.Prune | src/main/java/com/app/BalanceService.java:76 | Entries with absolute value below 0.01 are removed; all others stay with their value unchanged |
| BalanceService.PruneIdempotent | src/main/java/com/app/BalanceService.java:76 | Pruning a pruned map changes nothing |
| BalanceService.PruneBoundary | src/main/java/com/app/BalanceService.java:76 | 0.01 and −0.01 are kept; 0.009, −0.009 and 0 are removed |
| BalanceService.DebitSplits | src/main/java/com/app/BalanceService.java:50-56 | The inner loop as a fold over the split rows; what it does to every balance and to the keys is the contract of `DebitSplitsBalance` and `DebitSplitsKeys` |
| BalanceService.PostExpense | src/main/java/com/app/BalanceService.java:39-56 | One expense: credit the payer, then debit the rows listed for it; its effect on every user is `PostExpenseBalance` |
| BalanceService.PostExpenses | src/main/java/com/app/BalanceService.java:39-57 | The expense loop as a fold; its effect is `PostExpensesBalance` and `PostExpensesKeys` |
| BalanceService.ApplySettlement | src/main/java/com/app/BalanceService.java:63-73 | One settlement: payer credited, receiver debited; its effect is `SettlementBalance` |
| BalanceService.PostSettlements | src/main/java/com/app/BalanceService.java:63-73 | The settlement loop as a fold; its effect is `PostSettlementsBalance` and `PostSettlementsKeys` |
| BalanceService.RawBalances | src/main/java/com/app/BalanceService.java:33-73 | The map before pruning: expenses, then settlements, from an empty map; characterized against the per-user balance by `RawBalancesCharacterization` |
| BalanceService.NetBalances | src/main/java/com/app/BalanceService.java:32-79 | `calculateNetBalances`: the raw map pruned below 0.01; characterized by `NetBalancesCharacterization` |
| BalanceService.DebitSplitsBalance | src/main/java/com/app/BalanceService.java:50-56 | Each split row lowers its member's balance by its owed amount |
| BalanceService.DebitSplitsKeys | src/main/java/com/app/BalanceService.java:50-56 | Debiting adds an entry for every split member and no other |
| BalanceService.PostExpenseBalance | src/main/java/com/app/BalanceService.java:39-56 | One expense raises the payer's balance by the full amount and lowers each listed member's by what they owe |
| BalanceService.PayerCredited | src/main/java/com/app/BalanceService.java:42-44 | A payer with no row of their own gains exactly the amount |
| BalanceService.PostExpenseKeys | src/main/java/com/app/BalanceService.java:42-56 | One expense adds entries for its payer and its listed members only |
| BalanceService.PostExpensesBalance | src/main/java/com/app/BalanceService.java:39-57 | The expense loop adds each user's per-expense contribution |
| BalanceService.PostExpensesKeys | src/main/java/com/app/BalanceService.java:39-57 | The expense loop adds entries for payers and listed members only |
| BalanceService.SettlementBalance | src/main/java/com/app/BalanceService.java:63-73 | A settlement raises its payer's balance and lowers its receiver's by the amount |
| BalanceService.SettlementKeys | src/main/java/com/app/BalanceService.java:63-73 | A settlement adds entries for its payer and receiver and for no one else |
| BalanceService.PostSettlementsBalance | src/main/java/com/app/BalanceService.java:63-73 | The settlement loop adds each user's net settlement payments |
| BalanceService.PostSettlementsKeys | src/main/java/com/app/BalanceService.java:63-73 | The settlement loop adds entries for settlement payers and receivers only |
| BalanceService.RawBalancesKeys | src/main/java/com/app/BalanceService.java:33-73 | Before pruning there is an entry for exactly the ids that occur in the input |
| BalanceService.RawBalancesCharacterization | src/main/java/com/app/BalanceService.java:24-73 | Before pruning: an entry for exactly the ids that occur in the input, each equal to what the user paid, less what they owe, plus settlements paid, less settlements received |
| BalanceService.NetBalancesCharacterization | src/main/java/com/app/BalanceService.java:32-79 | A user is in the result if and only if they occur in the input and their balance is at least 0.01 from zero; the entry is that balance |
| BalanceService.ExpenseOrderIrrelevant | src/main/java/com/app/BalanceService.java:39-57 | Any reordering of the expenses gives the same balances |
| BalanceService.SplitOrderIrrelevant | src/main/java/com/app/BalanceService.java:48-56 | Any reordering of the split table gives the same balances |
| BalanceService.SettlementOrderIrrelevant | src/main/java/com/app/BalanceService.java:63-73 | Any reordering of the settlements gives the same balances |
| BalanceService.TotalMerge | src/main/java/com/app/BalanceService.java:44 | A merge adds its delta to the sum of all balances |
| BalanceService.TotalDebitSplits | src/main/java/com/app/BalanceService.java:50-56 | Debiting split rows lowers the sum of balances by their total owed |
| BalanceService.TotalPostExpenses | src/main/java/com/app/BalanceService.java:39-57 | The expense loop raises the sum of balances by each expense's amount less its rows' total |
| BalanceService.TotalApplySettlement | src/main/java/com/app/BalanceService.java:63-73 | A settlement leaves the sum of balances unchanged |
| BalanceService.TotalPostSettlements | src/main/java/com/app/BalanceService.java:63-73 | Settlements leave the sum of balances unchanged |
| BalanceService.RawTotal | src/main/java/com/app/BalanceService.java:33-73 | Before pruning, the balances add up to the sum over expenses of amount minus that expense's split rows |
| BalanceService.RawTotalZeroIff | src/main/java/com/app/BalanceService.java:33-73 | When no expense is over-split, the balances add up to zero exactly when every expense's rows add up to its amount |
| BalanceService.EqualSplitConservation | src/main/java/com/app/BalanceService.java:39-57 | One equally split expense, then any settlements: the balances add up to zero exactly when the payer is not a listed member |
| BalanceService.SelfSettlement | src/main/java/com/app/BalanceService.java:63-73 | A settlement with oneself changes no balance and no pruned result |
| BalanceService.RecordExpense | src/main/java/com/app/BalanceService.java:39-56 | One pass of the expense loop: payer credited, then each split row debited |
| BalanceService.RunningTotals | src/main/java/com/app/BalanceService.java:33-73 | The loops compute the unpruned fold |
| BalanceService.CalculateNetBalances | src/main/java/com/app/BalanceService.java:32-79 | The result holds exactly the users who occur and whose reference balance is at least 0.01 from zero, each with that balance |
| App.Classify | src/main/java/com/app/App.java:102-105 | "IS OWED" exactly for a positive balance, "OWES" otherwise; the magnitude is never negative |
| App.ClassifyLabel | src/main/java/com/app/App.java:103 | The printed word is "IS OWED" for balance > 0 and "OWES" for balance ≤ 0 |
| App.ClassifyRoundTrip | src/main/java/com/app/App.java:103-104 | Status and magnitude together give back the signed balance, so the magnitude is its absolute value |
| App.PrintNetBalances | src/main/java/com/app/App.java:97-107 | The settled message exactly for an empty map; otherwise one line per entry, each naming a distinct user and classified from that user's balance |
| App.Label | src/main/java/com/app/App.java:103 | The status word of a line; which word goes with which balance is `ClassifyLabel` |
| App.DigitChar | src/main/java/com/app/App.java:105 | The character of a decimal digit, whose code is the digit's value above '0' |
| App.Digits | src/main/java/com/app/App.java:105 | `%d` of a non-negative number: digits only, no leading zero |
| App.DigitsRoundTrip | src/main/java/com/app/App.java:105 | Reading the printed digits back gives the number |
| App.Decimal | src/main/java/com/app/App.java:105 | `%d` of any `int`: a minus sign before a negative number's digits |
| App.Cents | src/main/java/com/app/App.java:105 | `%.2f` rounding: the whole number of cents within half a cent of the amount |
| App.CentsExact | src/main/java/com/app/App.java:105 | An amount in whole cents is not changed by rounding |
| App.UnsignedFixed | src/main/java/com/app/App.java:105 | `%.2f` of a non-negative amount, '.' as separator: whole units, a point, two digits |
| App.Fixed | src/main/java/com/app/App.java:104-105 | `%.2f` of any amount: a minus sign before a negative one |
| App.PrintedCents | src/main/java/com/app/App.java:104-105 | The printed amount read back, units and two decimals, is the amount in cents |
| App.LineText | src/main/java/com/app/App.java:105 | One printed line: `User ID <id>: <status word> $<amount>` |
| App.Render | src/main/java/com/app/App.java:97-107 | The printed output: the settled message alone for `Settled`, otherwise one line per report line |
| App.Dinner | src/main/java/com/app/App.java:50-61 | The demo's dinner is the new 90.00 "Team Dinner" expense of user 1, re-created with its assigned id |
| App.DemoSplit | src/main/java/com/app/App.java:50-62 | Splitting 90.00 paid by user 1 over [1, 6] records one row: user 6 owes 45.00 |
| App.DemoSplitReadBack | src/main/java/com/app/ExpenseRepository.java:151-172 | The demo's split row, saved with id −1 and read back with any stored id, is user 6 owing 45.00 on the dinner |
| App.DemoBalancesBeforeSettlement | src/main/java/com/app/App.java:65-68 | Before the settlement, whatever id the split row was stored under, user 1 is at +90.00 and user 6 at −45.00 |
| App.DemoBalancesAfterSettlement | src/main/java/com/app/App.java:70-80 | After user 6 pays user 1 45.00, whatever the stored split id, only user 1 remains, at +45.00 |
| App.DemoFinalText | src/main/java/com/app/App.java:77-80 | The final report's one line, for user 1 owed 45.00, prints as `User ID 1: IS OWED $45.00` |
| App.DemoFinalReport | src/main/java/com/app/App.java:72-80 | The demo's final balances, reported and printed, are the single line `User ID 1: IS OWED $45.00` |
| App.DemoReportLines | src/main/java/com/app/App.java:97-107 | The demo's report lines: user 1 IS OWED 90.00, user 6 OWES 45.00, then user 1 IS OWED 45.00 |

## Left out

- JDBC and SQL (inserts, batches, generated keys, connection handling, `DatabaseException`),
  `UserRepository`, `DatabaseConnector`: persistence I/O. The repository reads are input
  sequences; the insert batch is the method's result.
- The HTTP layers (`WebApp`, `ExpenseController`), the React frontend, `User` and the request DTO:
  network and UI plumbing that plays no part in the ledger.
- IEEE-754 doubles: amounts are exact reals, so rounding of `amount / n` and of the sums is not
  modelled.
- `LocalDate.now()` and `LocalDateTime.now()`: the date and the settlement time are parameters.
- The error messages printed by the math helpers, and logging: output only.
- `%.2f` of a `double`: `App.Fixed` rounds the exact real amount half up to cents; Java rounds the
  double's decimal expansion, which can differ in the last cent for amounts not exactly representable.
- The iteration order of `HashMap.forEach`: `App.PrintNetBalances` picks the next user arbitrarily
  and its contract holds for every order.
- The order in which the database returns rows: the model reads the split table in table order and
  proves instead that any reordering gives the same balances.
- Unpaired surrogates: a Java `String` may hold a lone UTF-16 surrogate, which a Dafny `string`
  (a sequence of Unicode scalar values) cannot; `StringUtility.Reverse` is modelled only on
  well-formed text, where it reverses code points as `StringBuilder.reverse` does.
- Whether `merge` leaves an entry created by a zero delta: the model keeps it, as `HashMap.merge`
  with `Double::sum` does, and pruning removes it.
- App.UnsignedFixed, App.DemoFinalText, App.DemoFinalReport: the model prints numbers as a
  locale with '.' as decimal separator and ASCII digits does; Java's `printf` uses the default
  locale's separator and digits, so under a German locale the demo line ends in `$45,00`.
- ExpenseRepository.EqualSplit, ExpenseRepository.SplitExpenseAndRecordDebts: member ids are plain
  integers; a `null` entry in the Java `List<Integer>` throws `NullPointerException` when it is
  unboxed at src/main/java/com/app/ExpenseRepository.java:67, before the batch runs, so nothing is
  recorded and the exception reaches the caller unwrapped. A `seq<int>` cannot hold that entry.
- ExpenseRepository.EqualSplitTotal: states only the if-and-only-if; how much the rows add up to,
  amount × (n − c) / n, is the contract of `ExpenseRepository.SharesTotal`, which it uses.
- The demo's user and group registration, the `newExpenseId > 0` guard and the utility demo
  (`calculateSplit(55.75, 3)`): the demo lemmas assume a database holding only the demo's own
  expense, split and settlement.

=== FILE: app.dfy ===
/**
 The console report of the application and its demo run: a balance map is
 printed either as the single "settled" message or as one line per user,
 saying whether the user is owed money or owes it, and how much.
 */
module App {
  import opened Records
  import opened ExpenseRepository
  import opened BalanceService
  import opened Folds

  /** Printed instead of any line when no balance is left. */
  const SettledMessage: string := "All balances are settled (Net Zero)."

  datatype Status = IsOwed | Owes

  function Label(status: Status): string {
    match status
    case IsOwed => "IS OWED"
    case Owes => "OWES"
  }

  /** One printed line: `User ID <userId>: <status> $<magnitude>`. */
  datatype ReportLine = ReportLine(userId: int, status: Status, magnitude: real)

  datatype Report = Settled | Lines(lines: seq<ReportLine>)

  /** The line for one entry: "IS OWED" for a positive balance, "OWES" otherwise, with the absolute value. */
  function Classify(userId: int, balance: real): (line: ReportLine)
    ensures line.userId == userId
    ensures line.status == IsOwed <==> balance > 0.0
    ensures line.magnitude >= 0.0
  {
    ReportLine(userId, if balance > 0.0 then IsOwed else Owes, Abs(balance))
  }

  /** The signed balance a line stands for: positive when owed, negative when owing. */
  function Signed(line: ReportLine): real {
    if line.status == IsOwed then line.magnitude else -line.magnitude
  }

  /** The printed status word: "IS OWED" exactly for a positive balance, "OWES" otherwise. */
  lemma ClassifyLabel(userId: int, balance: real)
    ensures balance > 0.0 ==> Label(Classify(userId, balance).status) == "IS OWED"
    ensures balance <= 0.0 ==> Label(Classify(userId, balance).status) == "OWES"
  {
  }

  /** A line loses no information: its status and magnitude give back the balance. */
  lemma ClassifyRoundTrip(userId: int, balance: real)
    ensures Signed(Classify(userId, balance)) == balance
  {
  }

  /** Line `line` belongs to the entry of `balances` it names, and is classified from it. */
  predicate Describes(balances: Balances, line: ReportLine) {
    line.userId in balances && line == Classify(line.userId, balances[line.userId])
  }

  /** The user ids the lines are about. */
  function UserIds(lines: seq<ReportLine>): set<int>
    decreases |lines|
  {
    if |lines| == 0 then {} else UserIds(lines[..|lines| - 1]) + {lines[|lines| - 1].userId}
  }

  lemma {:induction false} InUserIds(lines: seq<ReportLine>, u: int)
    ensures u in UserIds(lines) <==> exists i :: 0 <= i < |lines| && lines[i].userId == u
    decreases |lines|
  {
    if |lines| > 0 {
      var prefix := lines[..|lines| - 1];
      InUserIds(prefix, u);
      if u in UserIds(prefix) {
        var i :| 0 <= i < |prefix| && prefix[i].userId == u;
        assert lines[i].userId == u;
      }
      if exists i :: 0 <= i < |lines| && lines[i].userId == u {
        var i :| 0 <= i < |lines| && lines[i].userId == u;
        if i < |prefix| {
          assert prefix[i].userId == u;
        }
      }
    }
  }

  /** Lines name as many distinct users as there are lines exactly when no user is named twice. */
  lemma {:induction false} UserIdsDistinct(lines: seq<ReportLine>)
    ensures |UserIds(lines)| <= |lines|
    ensures |UserIds(lines)| == |lines| ==> forall i, j :: 0 <= i < j < |lines| ==> lines[i].userId != lines[j].userId
    decreases |lines|
  {
    if |lines| > 0 {
      var prefix := lines[..|lines| - 1];
      var last := lines[|lines| - 1];
      UserIdsDistinct(prefix);
      InUserIds(prefix, last.userId);
      if |UserIds(lines)| == |lines| {
        assert last.userId !in UserIds(prefix);
        forall i, j | 0 <= i < j < |lines| ensures lines[i].userId != lines[j].userId {
          if j < |prefix| {
            assert prefix[i] == lines[i] && prefix[j] == lines[j];
          } else {
            assert prefix[i] == lines[i];
          }
        }
      }
    }
  }

  /** Some user id of a non-empty set; which one is left open, like a hash map's iteration order. */
  method AnyOf(ids: set<int>) returns (u: int)
    requires |ids| > 0
    ensures u in ids
  {
    assert ids != {};
    // Never read: naming `Pick(ids)` gives the verifier a witness for the choice below.
    ghost var picked := Pick(ids);
    u :| u in ids;
  }

  /**
   `printNetBalances`: the settled message for an empty map, otherwise one
   line per entry. The map's iteration order is not specified, so the lines
   come in an arbitrary order.
   */
  method PrintNetBalances(balances: Balances) returns (report: Report)
    ensures report == Settled <==> |balances| == 0
    ensures report.Lines? ==> UserIds(report.lines) == balances.Keys
    ensures report.Lines? ==> |report.lines| == |balances|
    ensures report.Lines? ==> forall i :: 0 <= i < |report.lines| ==> Describes(balances, report.lines[i])
    ensures report.Lines? ==> forall i, j :: 0 <= i < j < |report.lines| ==> report.lines[i].userId != report.lines[j].userId
  {
    if |balances| == 0 {
      return Settled;
    }
    var lines: seq<ReportLine> := [];
    var remaining := balances.Keys;
    while |remaining| > 0
      invariant remaining <= balances.Keys
      invariant UserIds(lines) == balances.Keys - remaining
      invariant |lines| + |remaining| == |balances|
      invariant forall i :: 0 <= i < |lines| ==> Describes(balances, lines[i])
      decreases |remaining|
    {
      var u := AnyOf(remaining);
      assert (lines + [Classify(u, balances[u])])[..|lines|] == lines;
      lines := lines + [Classify(u, balances[u])];
      remaining := remaining - {u};
    }
    assert remaining == {};
    UserIdsDistinct(lines);
    report := Lines(lines);
  }

  // ---------------------------------------------------------------------
  // The printed text

  /** The character of a decimal digit. */
  function DigitChar(d: nat): (c: char)
    requires d < 10
    ensures '0' <= c <= '9' && c as int - '0' as int == d
  {
    "0123456789"[d]
  }

  /** `%d` of a non-negative number: its decimal digits, without leading zeros. */
  function Digits(n: nat): (s: string)
    ensures |s| > 0 && (s[0] == '0' ==> n == 0)
    ensures forall i :: 0 <= i < |s| ==> '0' <= s[i] <= '9'
    decreases n
  {
    if n < 10 then [DigitChar(n)] else Digits(n / 10) + [DigitChar(n % 10)]
  }

  /** The number a string of decimal digits stands for. */
  function DigitsValue(s: string): nat
    requires forall i :: 0 <= i < |s| ==> '0' <= s[i] <= '9'
    decreases |s|
  {
    if |s| == 0 then 0 else DigitsValue(s[..|s| - 1]) * 10 + (s[|s| - 1] as int - '0' as int)
  }

  /** Reading the printed digits back gives the number. */
  lemma {:induction false} DigitsRoundTrip(n: nat)
    ensures DigitsValue(Digits(n)) == n
    decreases n
  {
    if n >= 10 {
      var s := Digits(n);
      assert s[..|s| - 1] == Digits(n / 10);
      DigitsRoundTrip(n / 10);
    }
  }

  /** `%d` of any number. */
  function Decimal(n: int): string {
    if n < 0 then "-" + Digits(-n) else Digits(n)
  }

  /** A non-negative amount in whole cents, rounded half up. */
  function Cents(x: real): (c: nat)
    requires x >= 0.0
    ensures c as real - 0.5 <= x * 100.0 < c as real + 0.5
  {
    (x * 100.0 + 0.5).Floor
  }

  /** An amount already in whole cents is not changed by rounding. */
  lemma CentsExact(c: nat)
    ensures Cents(c as real / 100.0) == c
  {
  }

  /** `%.2f` of a non-negative amount, as a locale with '.' and ASCII digits prints it: whole units, a point, and two digits of cents. */
  function UnsignedFixed(x: real): (s: string)
    requires x >= 0.0
    ensures |s| >= 4 && s[|s| - 3] == '.'
  {
    var c := Cents(x);
    Digits(c / 100) + "." + [DigitChar(c % 100 / 10), DigitChar(c % 10)]
  }

  /** `%.2f` of any amount: a minus sign in front of a negative one. */
  function Fixed(x: real): string {
    if x < 0.0 then "-" + UnsignedFixed(-x) else UnsignedFixed(x)
  }

  /** The text of `printf("User ID %d: %s $%.2f\n", ...)` for one line, without the newline. */
  function LineText(line: ReportLine): string {
    "User ID " + Decimal(line.userId) + ": " + Label(line.status) + " $" + Fixed(line.magnitude)
  }

  /** What `printNetBalances` prints, one string per output line. */
  function Render(report: Report): (text: seq<string>)
    ensures report.Settled? ==> text == [SettledMessage]
    ensures report.Lines? ==> |text| == |report.lines|
  {
    match report
    case Settled => [SettledMessage]
    case Lines(lines) => seq(|lines|, i requires 0 <= i < |lines| => LineText(lines[i]))
  }

  /** The printed amount of a line is its magnitude in cents, read back digit by digit. */
  lemma {:induction false} PrintedCents(x: real)
    requires x >= 0.0
    ensures var s := UnsignedFixed(x);
      var whole := s[..|s| - 3];
      var fraction := s[|s| - 2..];
      && (forall i :: 0 <= i < |whole| ==> '0' <= whole[i] <= '9')
      && (forall i :: 0 <= i < |fraction| ==> '0' <= fraction[i] <= '9')
      && DigitsValue(whole) * 100 + DigitsValue(fraction) == Cents(x)
  {
    var c := Cents(x);
    var s := UnsignedFixed(x);
    var tens, ones := DigitChar(c % 100 / 10), DigitChar(c % 10);
    assert s == Digits(c / 100) + "." + [tens, ones];
    assert s[..|s| - 3] == Digits(c / 100);
    assert s[|s| - 2..] == [tens, ones];
    DigitsRoundTrip(c / 100);
    assert [tens, ones][..1] == [tens];
    assert [tens][..0] == [];
    assert DigitsValue([tens]) == c % 100 / 10;
    assert DigitsValue([tens, ones]) == c % 100 / 10 * 10 + c % 10;
  }

  // ---------------------------------------------------------------------
  // The demo run of `main`

  /**
   The dinner of the demo run: 90.00 paid by Alice (user 1), re-created with
   the id the database assigned before it is split.
   */
  function Dinner(expenseId: int, today: Day): (e: Expense)
    ensures e == NewExpense(90.0, "Team Dinner", 1, today).(expenseId := expenseId)
  {
    Expense(expenseId, 90.0, "Team Dinner", 1, today)
  }

  /** Splitting the dinner over Alice and Bob (user 6) records one row: Bob owes 45.00. */
  lemma DemoSplit(expenseId: int, today: Day)
    ensures EqualSplit(Dinner(expenseId, today), [1, 6]) == [ExpenseSplit(UnsavedId, expenseId, 6, 45.0)]
  {
    var rows := EqualSplit(Dinner(expenseId, today), [1, 6]);
    assert Without([1, 6], 1) == [6] by {
      assert [1, 6][..1] == [1];
      assert [1, 6][..1][..0] == [];
    }
    assert |rows| == 1;
  }

  /**
   The split table `calculateNetBalances` reads in the demo: the one row the
   split recorded, read back with the id the database gave it.
   */
  lemma DemoSplitReadBack(expenseId: int, today: Day, splitId: int)
    ensures var row := EqualSplit(Dinner(expenseId, today), [1, 6])[0];
      && row.splitId == UnsavedId
      && row.(splitId := splitId) == ExpenseSplit(splitId, expenseId, 6, 45.0)
  {
    DemoSplit(expenseId, today);
    SplitWithAssignedId(expenseId, 6, 45.0, splitId);
  }

  /**
   Before the settlement Alice is owed 90.00 and Bob owes 45.00: Alice was
   credited the whole dinner while only Bob's half was recorded as a debt.
   The split row is the one `DemoSplitReadBack` describes, under any stored id.
   */
  lemma DemoBalancesBeforeSettlement(expenseId: int, today: Day, splitId: int)
    ensures var table := [ExpenseSplit(splitId, expenseId, 6, 45.0)];
      && RawBalances([Dinner(expenseId, today)], table, []) == map[1 := 90.0, 6 := -45.0]
      && NetBalances([Dinner(expenseId, today)], table, []) == map[1 := 90.0, 6 := -45.0]
  {
    var table := [ExpenseSplit(splitId, expenseId, 6, 45.0)];
    var dinner := Dinner(expenseId, today);
    assert ListExpenseSplits(table, expenseId) == table by {
      assert table[..0] == [];
    }
    var credited := Merge(map[], 1, 90.0);
    assert credited == map[1 := 90.0];
    assert DebitSplits(credited, table) == Merge(credited, 6, -45.0) by {
      assert table[..0] == [];
    }
    var raw := RawBalances([dinner], table, []);
    assert PostExpenses(map[], [dinner], table) == PostExpense(map[], dinner, table) by {
      assert [dinner][..0] == [];
      assert PostExpenses(map[], [], table) == map[];
    }
    assert raw == PostExpenses(map[], [dinner], table);
    assert raw == map[1 := 90.0, 6 := -45.0];
    assert Prune(raw).Keys == {1, 6};
  }

  /**
   After Bob pays Alice 45.00, Bob is settled but Alice is still owed 45.00,
   so the report is not the settled message.
   */
  lemma DemoBalancesAfterSettlement(expenseId: int, today: Day, splitId: int, groupId: int, now: Instant)
    ensures var table := [ExpenseSplit(splitId, expenseId, 6, 45.0)];
      NetBalances([Dinner(expenseId, today)], table, [NewSettlement(groupId, 6, 1, 45.0, now)]) == map[1 := 45.0]
  {
    var table := [ExpenseSplit(splitId, expenseId, 6, 45.0)];
    var dinner := Dinner(expenseId, today);
    var payment := NewSettlement(groupId, 6, 1, 45.0, now);
    DemoBalancesBeforeSettlement(expenseId, today, splitId);
    var raw := RawBalances([dinner], table, []);
    assert raw == map[1 := 90.0, 6 := -45.0];
    var settled := RawBalances([dinner], table, [payment]);
    assert settled == ApplySettlement(raw, payment) by {
      assert [payment][..0] == [];
    }
    assert settled == map[1 := 45.0, 6 := 0.0];
    assert Prune(settled).Keys == {1};
  }

  /** The final report of the demo run, as printed. */
  lemma DemoFinalText()
    ensures Render(Lines([Classify(1, 45.0)])) == ["User ID 1: IS OWED $45.00"]
  {
    assert Digits(45) == "45" by {
      assert Digits(4) == "4";
    }
    assert Cents(45.0) == 4500;
    assert Fixed(45.0) == "45.00";
    var line := Classify(1, 45.0);
    assert line == ReportLine(1, IsOwed, 45.0);
    assert LineText(line) == "User ID " + "1" + ": " + "IS OWED" + " $" + "45.00";
    assert "User ID " + "1" + ": " + "IS OWED" + " $" + "45.00" == "User ID 1: IS OWED $45.00";
    assert Render(Lines([line])) == [LineText(line)];
  }

  /**
   The final step of the demo run end to end: the balances computed after the
   settlement, reported by `PrintNetBalances` and rendered, are the one line
   for Alice.
   */
  method DemoFinalReport(expenseId: int, today: Day, splitId: int, groupId: int, now: Instant) returns (text: seq<string>)
    ensures text == ["User ID 1: IS OWED $45.00"]
  {
    var table := [ExpenseSplit(splitId, expenseId, 6, 45.0)];
    var net := NetBalances([Dinner(expenseId, today)], table, [NewSettlement(groupId, 6, 1, 45.0, now)]);
    DemoBalancesAfterSettlement(expenseId, today, splitId, groupId, now);
    assert net == map[1 := 45.0];
    var report := PrintNetBalances(net);
    assert report.lines[0] == Classify(1, 45.0) by {
      assert UserIds(report.lines) == {1};
      assert Describes(net, report.lines[0]);
    }
    assert report == Lines([Classify(1, 45.0)]);
    DemoFinalText();
    text := Render(report);
  }

  /** The lines printed in the demo run, before and after the settlement. */
  lemma DemoReportLines()
    ensures Classify(1, 90.0) == ReportLine(1, IsOwed, 90.0)
    ensures Classify(6, -45.0) == ReportLine(6, Owes, 45.0)
    ensures Classify(1, 45.0) == ReportLine(1, IsOwed, 45.0)
  {
  }
}

=== FILE: balance_service.dfy ===
/**
 The net-balance computation: every expense credits its payer with the full
 amount and debits each of its split rows' members with what they owe, every
 settlement credits its payer and debits its receiver, and entries that end
 within a cent of zero are dropped. A positive balance means the user is owed
 money, a negative one that the user owes money.

 The repository reads become inputs: the list of expenses, the split table
 (read one expense at a time through `ListExpenseSplits`) and the list of
 settlements.
 */
module BalanceService {
  import opened Records
  import opened Folds
  import opened ExpenseRepository

  /** User id to signed balance. */
  type Balances = map<int, real>

  /** Balances smaller than this in absolute value count as settled. */
  const Epsilon: real := 0.01

  function Abs(x: real): real {
    if x < 0.0 then -x else x
  }

  /** The balance of `userId`, zero when the map has no entry for it. */
  function BalanceOf(m: Balances, userId: int): real {
    if userId in m then m[userId] else 0.0
  }

  /** `merge(userId, delta, Double::sum)`: add `delta` to one user's running total. */
  function Merge(m: Balances, userId: int, delta: real): (r: Balances)
    ensures r.Keys == m.Keys + {userId}
    ensures BalanceOf(r, userId) == BalanceOf(m, userId) + delta
    ensures forall u :: u != userId ==> BalanceOf(r, u) == BalanceOf(m, u)
  {
    AddTo(m, userId, delta)
  }

  // ---------------------------------------------------------------------
  // The fold, in the order the service applies it

  /** Debit each split row's member with the amount the row owes. */
  function DebitSplits(m: Balances, splits: seq<ExpenseSplit>): Balances
    decreases |splits|
  {
    if |splits| == 0 then m
    else
      var s := splits[|splits| - 1];
      Merge(DebitSplits(m, splits[..|splits| - 1]), s.memberId, -s.owedAmount)
  }

  /** Credit the payer with the full amount, then debit the expense's split rows. */
  function PostExpense(m: Balances, expense: Expense, table: seq<ExpenseSplit>): Balances {
    DebitSplits(Merge(m, expense.payerId, expense.amount), ListExpenseSplits(table, expense.expenseId))
  }

  function PostExpenses(m: Balances, expenses: seq<Expense>, table: seq<ExpenseSplit>): Balances
    decreases |expenses|
  {
    if |expenses| == 0 then m
    else PostExpense(PostExpenses(m, expenses[..|expenses| - 1], table), expenses[|expenses| - 1], table)
  }

  /** The settlement's payer (the debtor) goes up, its receiver (the creditor) goes down. */
  function ApplySettlement(m: Balances, s: Settlement): Balances {
    Merge(Merge(m, s.payerId, s.amount), s.receiverId, -s.amount)
  }

  function PostSettlements(m: Balances, settlements: seq<Settlement>): Balances
    decreases |settlements|
  {
    if |settlements| == 0 then m
    else ApplySettlement(PostSettlements(m, settlements[..|settlements| - 1]), settlements[|settlements| - 1])
  }

  /** The running totals after every expense, split row and settlement, before pruning. */
  function RawBalances(expenses: seq<Expense>, table: seq<ExpenseSplit>, settlements: seq<Settlement>): Balances {
    PostSettlements(PostExpenses(map[], expenses, table), settlements)
  }

  /** Drop every entry whose absolute value is below one cent; keep the rest unchanged. */
  function Prune(m: Balances): (r: Balances)
    ensures forall u :: u in m && Abs(m[u]) < Epsilon ==> u !in r
    ensures forall u :: u in m && Abs(m[u]) >= Epsilon ==> u in r && r[u] == m[u]
    ensures r.Keys <= m.Keys
  {
    map u | u in m && Abs(m[u]) >= Epsilon :: m[u]
  }

  /** What the service returns. */
  function NetBalances(expenses: seq<Expense>, table: seq<ExpenseSplit>, settlements: seq<Settlement>): Balances {
    Prune(RawBalances(expenses, table, settlements))
  }

  // ---------------------------------------------------------------------
  // Reference: one user's balance as a sum of contributions

  /** What one split row contributes to `userId`'s balance. */
  function SplitDelta(userId: int): ExpenseSplit -> real {
    (s: ExpenseSplit) => if s.memberId == userId then -s.owedAmount else 0.0
  }

  /** What one expense, with its split rows, contributes to `userId`'s balance. */
  function ExpenseDelta(userId: int, table: seq<ExpenseSplit>): Expense -> real {
    (e: Expense) => (if e.payerId == userId then e.amount else 0.0) + Sum(ListExpenseSplits(table, e.expenseId), SplitDelta(userId))
  }

  /** What one settlement contributes to `userId`'s balance. */
  function SettlementDelta(userId: int): Settlement -> real {
    (s: Settlement) => (if s.payerId == userId then s.amount else 0.0) - (if s.receiverId == userId then s.amount else 0.0)
  }

  /**
   `userId`'s balance: what they paid for expenses, less what split rows say
   they owe, plus what they paid in settlements, less what they received.
   */
  function UserBalance(userId: int, expenses: seq<Expense>, table: seq<ExpenseSplit>, settlements: seq<Settlement>): real {
    Sum(expenses, ExpenseDelta(userId, table)) + Sum(settlements, SettlementDelta(userId))
  }

  function Payers(expenses: seq<Expense>): set<int>
    decreases |expenses|
  {
    if |expenses| == 0 then {}
    else Payers(expenses[..|expenses| - 1]) + {expenses[|expenses| - 1].payerId}
  }

  function SplitMembers(splits: seq<ExpenseSplit>): set<int>
    decreases |splits|
  {
    if |splits| == 0 then {}
    else SplitMembers(splits[..|splits| - 1]) + {splits[|splits| - 1].memberId}
  }

  /** Members of the split rows listed for any of `expenses`. */
  function DebtorsOf(expenses: seq<Expense>, table: seq<ExpenseSplit>): set<int>
    decreases |expenses|
  {
    if |expenses| == 0 then {}
    else
      var e := expenses[|expenses| - 1];
      DebtorsOf(expenses[..|expenses| - 1], table) + SplitMembers(ListExpenseSplits(table, e.expenseId))
  }

  function SettlementParties(settlements: seq<Settlement>): set<int>
    decreases |settlements|
  {
    if |settlements| == 0 then {}
    else
      var s := settlements[|settlements| - 1];
      SettlementParties(settlements[..|settlements| - 1]) + {s.payerId, s.receiverId}
  }

  /** Every id that occurs as an expense payer, a split member, or a settlement party. */
  function Participants(expenses: seq<Expense>, table: seq<ExpenseSplit>, settlements: seq<Settlement>): set<int> {
    Payers(expenses) + DebtorsOf(expenses, table) + SettlementParties(settlements)
  }

  // ---------------------------------------------------------------------
  // The fold computes the reference balances

  lemma {:induction false} DebitSplitsBalance(m: Balances, splits: seq<ExpenseSplit>, userId: int)
    ensures BalanceOf(DebitSplits(m, splits), userId) == BalanceOf(m, userId) + Sum(splits, SplitDelta(userId))
    decreases |splits|
  {
    if |splits| > 0 {
      DebitSplitsBalance(m, splits[..|splits| - 1], userId);
    }
  }

  lemma {:induction false} DebitSplitsKeys(m: Balances, splits: seq<ExpenseSplit>)
    ensures DebitSplits(m, splits).Keys == m.Keys + SplitMembers(splits)
    decreases |splits|
  {
    if |splits| > 0 {
      var prefix := splits[..|splits| - 1];
      DebitSplitsKeys(m, prefix);
    }
  }

  lemma {:induction false} PostExpensesBalance(m: Balances, expenses: seq<Expense>, table: seq<ExpenseSplit>, userId: int)
    ensures BalanceOf(PostExpenses(m, expenses, table), userId) == BalanceOf(m, userId) + Sum(expenses, ExpenseDelta(userId, table))
    decreases |expenses|
  {
    if |expenses| > 0 {
      var e := expenses[|expenses| - 1];
      var before := PostExpenses(m, expenses[..|expenses| - 1], table);
      PostExpensesBalance(m, expenses[..|expenses| - 1], table, userId);
      DebitSplitsBalance(Merge(before, e.payerId, e.amount), ListExpenseSplits(table, e.expenseId), userId);
    }
  }

  /**
   Posting one expense credits its payer with the full amount and debits
   each listed split row's member with what the row owes; nobody else moves.
   */
  lemma PostExpenseBalance(m: Balances, e: Expense, table: seq<ExpenseSplit>, userId: int)
    ensures BalanceOf(PostExpense(m, e, table), userId)
            == BalanceOf(m, userId) + (if userId == e.payerId then e.amount else 0.0)
               + Sum(ListExpenseSplits(table, e.expenseId), SplitDelta(userId))
  {
    DebitSplitsBalance(Merge(m, e.payerId, e.amount), ListExpenseSplits(table, e.expenseId), userId);
  }

  /** When no row listed for the expense names its payer, the payer gains exactly the amount. */
  lemma PayerCredited(m: Balances, e: Expense, table: seq<ExpenseSplit>)
    requires forall s :: s in ListExpenseSplits(table, e.expenseId) ==> s.memberId != e.payerId
    ensures BalanceOf(PostExpense(m, e, table), e.payerId) == BalanceOf(m, e.payerId) + e.amount
  {
    var rows := ListExpenseSplits(table, e.expenseId);
    PostExpenseBalance(m, e, table, e.payerId);
    assert forall k :: 0 <= k < |rows| ==> SplitDelta(e.payerId)(rows[k]) == 0.0 by {
      forall k | 0 <= k < |rows| ensures SplitDelta(e.payerId)(rows[k]) == 0.0 {
        assert rows[k] in rows;
      }
    }
    SumNonNegative(rows, SplitDelta(e.payerId));
  }

  lemma PostExpenseKeys(m: Balances, e: Expense, table: seq<ExpenseSplit>)
    ensures PostExpense(m, e, table).Keys == m.Keys + {e.payerId} + SplitMembers(ListExpenseSplits(table, e.expenseId))
  {
    DebitSplitsKeys(Merge(m, e.payerId, e.amount), ListExpenseSplits(table, e.expenseId));
  }

  lemma {:induction false} PostExpensesKeys(m: Balances, expenses: seq<Expense>, table: seq<ExpenseSplit>)
    ensures PostExpenses(m, expenses, table).Keys == m.Keys + Payers(expenses) + DebtorsOf(expenses, table)
    decreases |expenses|
  {
    if |expenses| > 0 {
      var e := expenses[|expenses| - 1];
      var prefix := expenses[..|expenses| - 1];
      var before := PostExpenses(m, prefix, table);
      var rows := ListExpenseSplits(table, e.expenseId);
      assert PostExpenses(m, expenses, table) == PostExpense(before, e, table);
      PostExpenseKeys(before, e, table);
      PostExpensesKeys(m, prefix, table);
    }
  }

  lemma SettlementBalance(m: Balances, s: Settlement, userId: int)
    ensures BalanceOf(ApplySettlement(m, s), userId) == BalanceOf(m, userId) + SettlementDelta(userId)(s)
    ensures ApplySettlement(m, s).Keys == m.Keys + {s.payerId, s.receiverId}
  {
    SettlementKeys(m, s);
  }

  /** A settlement adds entries for its payer and its receiver and no one else. */
  lemma SettlementKeys(m: Balances, s: Settlement)
    ensures ApplySettlement(m, s).Keys == m.Keys + {s.payerId, s.receiverId}
  {
  }

  lemma {:induction false} PostSettlementsBalance(m: Balances, settlements: seq<Settlement>, userId: int)
    ensures BalanceOf(PostSettlements(m, settlements), userId) == BalanceOf(m, userId) + Sum(settlements, SettlementDelta(userId))
    decreases |settlements|
  {
    if |settlements| > 0 {
      var prefix := settlements[..|settlements| - 1];
      PostSettlementsBalance(m, prefix, userId);
      SettlementBalance(PostSettlements(m, prefix), settlements[|settlements| - 1], userId);
    }
  }

  lemma {:induction false} PostSettlementsKeys(m: Balances, settlements: seq<Settlement>)
    ensures PostSettlements(m, settlements).Keys == m.Keys + SettlementParties(settlements)
    decreases |settlements|
  {
    if |settlements| > 0 {
      var prefix := settlements[..|settlements| - 1];
      var s := settlements[|settlements| - 1];
      PostSettlementsKeys(m, prefix);
      SettlementKeys(PostSettlements(m, prefix), s);
    }
  }

  /** Before pruning, the fold holds an entry for exactly the ids that occur in the input. */
  lemma RawBalancesKeys(expenses: seq<Expense>, table: seq<ExpenseSplit>, settlements: seq<Settlement>)
    ensures RawBalances(expenses, table, settlements).Keys == Participants(expenses, table, settlements)
  {
    PostExpensesKeys(map[], expenses, table);
    PostSettlementsKeys(PostExpenses(map[], expenses, table), settlements);
  }

  /**
   Before pruning, the fold holds an entry for exactly the ids that occur in
   the input, and each entry is that user's reference balance.
   */
  lemma RawBalancesCharacterization(expenses: seq<Expense>, table: seq<ExpenseSplit>, settlements: seq<Settlement>, userId: int)
    ensures RawBalances(expenses, table, settlements).Keys == Participants(expenses, table, settlements)
    ensures BalanceOf(RawBalances(expenses, table, settlements), userId) == UserBalance(userId, expenses, table, settlements)
  {
    var afterExpenses := PostExpenses(map[], expenses, table);
    RawBalancesKeys(expenses, table, settlements);
    PostExpensesBalance(map[], expenses, table, userId);
    PostSettlementsBalance(afterExpenses, settlements, userId);
  }

  /**
   The service's result: a user has an entry exactly when they occur in the
   input and their balance is at least one cent away from zero, and the entry
   is their balance.
   */
  lemma NetBalancesCharacterization(expenses: seq<Expense>, table: seq<ExpenseSplit>, settlements: seq<Settlement>, userId: int)
    ensures var net := NetBalances(expenses, table, settlements);
      && (userId in net <==> userId in Participants(expenses, table, settlements)
                             && Abs(UserBalance(userId, expenses, table, settlements)) >= Epsilon)
      && (userId in net ==> net[userId] == UserBalance(userId, expenses, table, settlements))
  {
    RawBalancesCharacterization(expenses, table, settlements, userId);
  }

  // ---------------------------------------------------------------------
  // The order of the inputs does not matter

  /** Two balance maps with the same keys and the same balance for every user are equal. */
  lemma BalancesEqual(a: Balances, b: Balances)
    requires a.Keys == b.Keys
    requires forall u :: BalanceOf(a, u) == BalanceOf(b, u)
    ensures a == b
  {
    forall u | u in a ensures a[u] == b[u] {
      assert BalanceOf(a, u) == BalanceOf(b, u);
    }
  }

  lemma {:induction false} InPayers(expenses: seq<Expense>, x: int)
    ensures x in Payers(expenses) <==> exists e :: e in expenses && e.payerId == x
    decreases |expenses|
  {
    if |expenses| > 0 {
      var prefix := expenses[..|expenses| - 1];
      assert expenses == prefix + [expenses[|expenses| - 1]];
      InPayers(prefix, x);
    }
  }

  lemma {:induction false} InSplitMembers(splits: seq<ExpenseSplit>, x: int)
    ensures x in SplitMembers(splits) <==> exists s :: s in splits && s.memberId == x
    decreases |splits|
  {
    if |splits| > 0 {
      var prefix := splits[..|splits| - 1];
      assert splits == prefix + [splits[|splits| - 1]];
      InSplitMembers(prefix, x);
    }
  }

  lemma {:induction false} InDebtorsOf(expenses: seq<Expense>, table: seq<ExpenseSplit>, x: int)
    ensures x in DebtorsOf(expenses, table) <==>
      exists e :: e in expenses && x in SplitMembers(ListExpenseSplits(table, e.expenseId))
    decreases |expenses|
  {
    if |expenses| > 0 {
      var prefix := expenses[..|expenses| - 1];
      assert expenses == prefix + [expenses[|expenses| - 1]];
      InDebtorsOf(prefix, table, x);
    }
  }

  lemma {:induction false} InSettlementParties(settlements: seq<Settlement>, x: int)
    ensures x in SettlementParties(settlements) <==>
      exists s :: s in settlements && (s.payerId == x || s.receiverId == x)
    decreases |settlements|
  {
    if |settlements| > 0 {
      var prefix := settlements[..|settlements| - 1];
      assert settlements == prefix + [settlements[|settlements| - 1]];
      InSettlementParties(prefix, x);
    }
  }

  /** Reordering the split table lists the same rows for every expense, so the same members. */
  lemma SplitMembersOfReorderedTable(table: seq<ExpenseSplit>, table': seq<ExpenseSplit>, expenseId: int)
    requires multiset(table) == multiset(table')
    ensures SplitMembers(ListExpenseSplits(table, expenseId)) == SplitMembers(ListExpenseSplits(table', expenseId))
  {
    forall x ensures x in SplitMembers(ListExpenseSplits(table, expenseId)) <==> x in SplitMembers(ListExpenseSplits(table', expenseId)) {
      assert forall s :: s in table <==> s in table' by {
        assert forall s :: s in table <==> s in multiset(table);
        assert forall s :: s in table' <==> s in multiset(table');
      }
      InSplitMembers(ListExpenseSplits(table, expenseId), x);
      InSplitMembers(ListExpenseSplits(table', expenseId), x);
    }
  }

  lemma {:induction false} DebtorsOfReorderedTable(expenses: seq<Expense>, table: seq<ExpenseSplit>, table': seq<ExpenseSplit>)
    requires multiset(table) == multiset(table')
    ensures DebtorsOf(expenses, table) == DebtorsOf(expenses, table')
    decreases |expenses|
  {
    if |expenses| > 0 {
      DebtorsOfReorderedTable(expenses[..|expenses| - 1], table, table');
      SplitMembersOfReorderedTable(table, table', expenses[|expenses| - 1].expenseId);
    }
  }

  /** Processing the expenses in another order gives the same result. */
  lemma ExpenseOrderIrrelevant(expenses: seq<Expense>, expenses': seq<Expense>, table: seq<ExpenseSplit>, settlements: seq<Settlement>)
    requires multiset(expenses) == multiset(expenses')
    ensures RawBalances(expenses, table, settlements) == RawBalances(expenses', table, settlements)
    ensures NetBalances(expenses, table, settlements) == NetBalances(expenses', table, settlements)
  {
    var a := RawBalances(expenses, table, settlements);
    var b := RawBalances(expenses', table, settlements);
    assert forall e :: e in expenses <==> e in expenses' by {
      assert forall e :: e in expenses <==> e in multiset(expenses);
      assert forall e :: e in expenses' <==> e in multiset(expenses');
    }
    forall u ensures BalanceOf(a, u) == BalanceOf(b, u) {
      RawBalancesCharacterization(expenses, table, settlements, u);
      RawBalancesCharacterization(expenses', table, settlements, u);
      SumPermutation(expenses, expenses', ExpenseDelta(u, table));
    }
    forall x ensures x in Payers(expenses) <==> x in Payers(expenses') {
      InPayers(expenses, x);
      InPayers(expenses', x);
    }
    forall x ensures x in DebtorsOf(expenses, table) <==> x in DebtorsOf(expenses', table) {
      InDebtorsOf(expenses, table, x);
      InDebtorsOf(expenses', table, x);
    }
    RawBalancesKeys(expenses, table, settlements);
    RawBalancesKeys(expenses', table, settlements);
    BalancesEqual(a, b);
  }

  /** Reading the split table in another order gives the same result. */
  lemma SplitOrderIrrelevant(expenses: seq<Expense>, table: seq<ExpenseSplit>, table': seq<ExpenseSplit>, settlements: seq<Settlement>)
    requires multiset(table) == multiset(table')
    ensures RawBalances(expenses, table, settlements) == RawBalances(expenses, table', settlements)
    ensures NetBalances(expenses, table, settlements) == NetBalances(expenses, table', settlements)
  {
    var a := RawBalances(expenses, table, settlements);
    var b := RawBalances(expenses, table', settlements);
    forall u ensures BalanceOf(a, u) == BalanceOf(b, u) {
      RawBalancesCharacterization(expenses, table, settlements, u);
      RawBalancesCharacterization(expenses, table', settlements, u);
      forall k | 0 <= k < |expenses|
        ensures ExpenseDelta(u, table)(expenses[k]) == ExpenseDelta(u, table')(expenses[k])
      {
        var id := expenses[k].expenseId;
        ListExpenseSplitsPermutation(table, table', id);
        SumPermutation(ListExpenseSplits(table, id), ListExpenseSplits(table', id), SplitDelta(u));
      }
      SumCongruent(expenses, ExpenseDelta(u, table), ExpenseDelta(u, table'));
    }
    DebtorsOfReorderedTable(expenses, table, table');
    RawBalancesKeys(expenses, table, settlements);
    RawBalancesKeys(expenses, table', settlements);
    BalancesEqual(a, b);
  }

  /** Processing the settlements in another order gives the same result. */
  lemma SettlementOrderIrrelevant(expenses: seq<Expense>, table: seq<ExpenseSplit>, settlements: seq<Settlement>, settlements': seq<Settlement>)
    requires multiset(settlements) == multiset(settlements')
    ensures RawBalances(expenses, table, settlements) == RawBalances(expenses, table, settlements')
    ensures NetBalances(expenses, table, settlements) == NetBalances(expenses, table, settlements')
  {
    var a := RawBalances(expenses, table, settlements);
    var b := RawBalances(expenses, table, settlements');
    assert forall s :: s in settlements <==> s in settlements' by {
      assert forall s :: s in settlements <==> s in multiset(settlements);
      assert forall s :: s in settlements' <==> s in multiset(settlements');
    }
    forall u ensures BalanceOf(a, u) == BalanceOf(b, u) {
      RawBalancesCharacterization(expenses, table, settlements, u);
      RawBalancesCharacterization(expenses, table, settlements', u);
      SumPermutation(settlements, settlements', SettlementDelta(u));
    }
    forall x ensures x in SettlementParties(settlements) <==> x in SettlementParties(settlements') {
      InSettlementParties(settlements, x);
      InSettlementParties(settlements', x);
    }
    RawBalancesKeys(expenses, table, settlements);
    RawBalancesKeys(expenses, table, settlements');
    BalancesEqual(a, b);
  }

  // ---------------------------------------------------------------------
  // Conservation: what the balances add up to

  /** What an expense leaves uncovered: its amount less the total its split rows owe. */
  function Surplus(table: seq<ExpenseSplit>): Expense -> real {
    (e: Expense) => e.amount - SumOwed(ListExpenseSplits(table, e.expenseId))
  }

  lemma TotalMerge(m: Balances, userId: int, delta: real)
    ensures Total(Merge(m, userId, delta)) == Total(m) + delta
  {
    TotalUpdate(m, userId, delta);
  }

  lemma {:induction false} TotalDebitSplits(m: Balances, splits: seq<ExpenseSplit>)
    ensures Total(DebitSplits(m, splits)) == Total(m) - SumOwed(splits)
    decreases |splits|
  {
    if |splits| > 0 {
      var s := splits[|splits| - 1];
      var before := DebitSplits(m, splits[..|splits| - 1]);
      TotalDebitSplits(m, splits[..|splits| - 1]);
      TotalMerge(before, s.memberId, -s.owedAmount);
      assert DebitSplits(m, splits) == Merge(before, s.memberId, -s.owedAmount);
      assert SumOwed(splits) == SumOwed(splits[..|splits| - 1]) + s.owedAmount;
    }
  }

  lemma {:induction false} TotalPostExpenses(m: Balances, expenses: seq<Expense>, table: seq<ExpenseSplit>)
    ensures Total(PostExpenses(m, expenses, table)) == Total(m) + Sum(expenses, Surplus(table))
    decreases |expenses|
  {
    if |expenses| > 0 {
      var e := expenses[|expenses| - 1];
      var before := PostExpenses(m, expenses[..|expenses| - 1], table);
      TotalPostExpenses(m, expenses[..|expenses| - 1], table);
      TotalMerge(before, e.payerId, e.amount);
      TotalDebitSplits(Merge(before, e.payerId, e.amount), ListExpenseSplits(table, e.expenseId));
    }
  }

  /** A settlement moves money between two users and leaves the total unchanged. */
  lemma TotalApplySettlement(m: Balances, s: Settlement)
    ensures Total(ApplySettlement(m, s)) == Total(m)
  {
    var credited := Merge(m, s.payerId, s.amount);
    TotalMerge(m, s.payerId, s.amount);
    TotalMerge(credited, s.receiverId, -s.amount);
    assert ApplySettlement(m, s) == Merge(credited, s.receiverId, -s.amount);
  }

  lemma {:induction false} TotalPostSettlements(m: Balances, settlements: seq<Settlement>)
    ensures Total(PostSettlements(m, settlements)) == Total(m)
    decreases |settlements|
  {
    if |settlements| > 0 {
      TotalPostSettlements(m, settlements[..|settlements| - 1]);
      TotalApplySettlement(PostSettlements(m, settlements[..|settlements| - 1]), settlements[|settlements| - 1]);
    }
  }

  /**
   Before pruning, the balances add up to the sum over all expenses of the
   amount less what the split rows owe. Settlements never change the total.
   */
  lemma RawTotal(expenses: seq<Expense>, table: seq<ExpenseSplit>, settlements: seq<Settlement>)
    ensures Total(RawBalances(expenses, table, settlements)) == Sum(expenses, Surplus(table))
  {
    var m: Balances := map[];
    TotalPostExpenses(m, expenses, table);
    TotalPostSettlements(PostExpenses(m, expenses, table), settlements);
  }

  /**
   When no expense's rows owe more than its amount, the balances add up to
   zero exactly when every expense is fully covered by its split rows. An
   expense whose payer is among the members it was split over is not.
   */
  lemma RawTotalZeroIff(expenses: seq<Expense>, table: seq<ExpenseSplit>, settlements: seq<Settlement>)
    requires forall k :: 0 <= k < |expenses| ==> Surplus(table)(expenses[k]) >= 0.0
    ensures Total(RawBalances(expenses, table, settlements)) == 0.0 <==>
      forall k :: 0 <= k < |expenses| ==> Surplus(table)(expenses[k]) == 0.0
  {
    RawTotal(expenses, table, settlements);
    SumNonNegative(expenses, Surplus(table));
  }

  /**
   One expense split equally and then any settlements: the balances add up
   to zero exactly when the payer is not among the members. With the payer
   among them, the payer's own share stays credited to the payer.
   */
  lemma EqualSplitConservation(expense: Expense, memberIds: seq<int>, settlements: seq<Settlement>)
    requires |memberIds| > 0 && expense.amount > 0.0
    ensures Total(RawBalances([expense], EqualSplit(expense, memberIds), settlements)) == 0.0
            <==> expense.payerId !in memberIds
  {
    var rows := EqualSplit(expense, memberIds);
    ListExpenseSplitsOfOneExpense(rows, expense.expenseId);
    RawTotal([expense], rows, settlements);
    assert Sum([expense], Surplus(rows)) == expense.amount - SumOwed(rows) by {
      assert [expense][..0] == [];
    }
    EqualSplitTotal(expense, memberIds);
  }

  // ---------------------------------------------------------------------
  // Settlements with oneself, and the pruning step

  /** A settlement whose payer is its receiver changes no balance, only adds a zero entry. */
  lemma SelfSettlement(m: Balances, s: Settlement)
    requires s.payerId == s.receiverId
    ensures forall u :: BalanceOf(ApplySettlement(m, s), u) == BalanceOf(m, u)
    ensures ApplySettlement(m, s).Keys == m.Keys + {s.payerId}
    ensures Prune(ApplySettlement(m, s)) == Prune(m)
  {
    var r := ApplySettlement(m, s);
    assert forall u :: u in r && u in m ==> r[u] == m[u] by {
      forall u | u in r && u in m ensures r[u] == m[u] {
        assert BalanceOf(r, u) == BalanceOf(m, u);
      }
    }
  }

  /** Pruning twice is pruning once. */
  lemma PruneIdempotent(m: Balances)
    ensures Prune(Prune(m)) == Prune(m)
  {
  }

  /** The cut-off is strict: a cent either way is kept, anything less is dropped. */
  lemma PruneBoundary()
    ensures Prune(map[1 := 0.01, 2 := -0.01, 3 := 0.009, 4 := -0.009, 5 := 0.0]) == map[1 := 0.01, 2 := -0.01]
  {
    var m := map[1 := 0.01, 2 := -0.01, 3 := 0.009, 4 := -0.009, 5 := 0.0];
    assert Prune(m).Keys == {1, 2};
  }

  // ---------------------------------------------------------------------
  // The service method, loop by loop

  /**
   One iteration of the expense loop: credit the payer, then debit each of
   `splits`, the rows the repository lists for the expense.
   */
  method RecordExpense(m: Balances, expense: Expense, splits: seq<ExpenseSplit>) returns (r: Balances)
    ensures r == DebitSplits(Merge(m, expense.payerId, expense.amount), splits)
  {
    var credited := Merge(m, expense.payerId, expense.amount);
    r := credited;
    var j := 0;
    while j < |splits|
      invariant 0 <= j <= |splits|
      invariant r == DebitSplits(credited, splits[..j])
    {
      assert splits[..j + 1][..j] == splits[..j];
      r := Merge(r, splits[j].memberId, -splits[j].owedAmount);
      j := j + 1;
    }
    assert splits[..j] == splits;
  }

  /**
   The loops of `calculateNetBalances`: one pass over the expenses, then one
   pass over the settlements.
   */
  method RunningTotals(expenses: seq<Expense>, table: seq<ExpenseSplit>, settlements: seq<Settlement>)
    returns (m: Balances)
    ensures m == RawBalances(expenses, table, settlements)
  {
    m := map[];
    var i := 0;
    while i < |expenses|
      invariant 0 <= i <= |expenses|
      invariant m == PostExpenses(map[], expenses[..i], table)
    {
      assert expenses[..i + 1][..i] == expenses[..i];
      m := RecordExpense(m, expenses[i], ListExpenseSplits(table, expenses[i].expenseId));
      i := i + 1;
    }
    assert expenses[..i] == expenses;
    var k := 0;
    while k < |settlements|
      invariant 0 <= k <= |settlements|
      invariant m == PostSettlements(PostExpenses(map[], expenses, table), settlements[..k])
    {
      assert settlements[..k + 1][..k] == settlements[..k];
      m := ApplySettlement(m, settlements[k]);
      k := k + 1;
    }
    assert settlements[..k] == settlements;
  }

  /**
   `calculateNetBalances`: the running totals with every entry below one cent
   removed. A user is reported exactly when they took part and their balance
   is at least a cent away from zero, and then with that balance.
   */
  method CalculateNetBalances(expenses: seq<Expense>, table: seq<ExpenseSplit>, settlements: seq<Settlement>)
    returns (net: Balances)
    ensures net == NetBalances(expenses, table, settlements)
    ensures forall u :: u in net <==> u in Participants(expenses, table, settlements) && Abs(UserBalance(u, expenses, table, settlements)) >= Epsilon
    ensures forall u :: u in net ==> net[u] == UserBalance(u, expenses, table, settlements)
  {
    var m := RunningTotals(expenses, table, settlements);
    net := Prune(m);
    forall u
      ensures u in net <==> u in Participants(expenses, table, settlements) && Abs(UserBalance(u, expenses, table, settlements)) >= Epsilon
      ensures u in net ==> net[u] == UserBalance(u, expenses, table, settlements)
    {
      NetBalancesCharacterization(expenses, table, settlements, u);
    }
  }
}

=== FILE: expense_repository.dfy ===
/**
 The split rule of the expense repository without its database: an expense
 and a member list give the debt rows that would be inserted, and the split
 table is read back one expense at a time.
 */
module ExpenseRepository {
  import opened Records
  import opened Folds
  import MathOperations

  /** The entries of `ids` other than `payer`, in order, repeats kept. */
  function Without(ids: seq<int>, payer: int): (r: seq<int>)
    ensures |r| == |ids| - Count(ids, payer)
    ensures forall k :: 0 <= k < |r| ==> r[k] != payer
    decreases |ids|
  {
    if |ids| == 0 then []
    else
      var last := ids[|ids| - 1];
      assert ids == ids[..|ids| - 1] + [last];
      assert multiset(ids) == multiset(ids[..|ids| - 1]) + multiset{last};
      var rest := Without(ids[..|ids| - 1], payer);
      if last == payer then rest else rest + [last]
  }

  /** `Without` drops every occurrence of the payer and keeps every other entry as often as it occurs. */
  lemma {:induction false} WithoutCounts(ids: seq<int>, payer: int, x: int)
    ensures Count(Without(ids, payer), x) == if x == payer then 0 else Count(ids, x)
    decreases |ids|
  {
    if |ids| > 0 {
      var last := ids[|ids| - 1];
      var rest := Without(ids[..|ids| - 1], payer);
      assert ids == ids[..|ids| - 1] + [last];
      assert multiset(ids) == multiset(ids[..|ids| - 1]) + multiset{last};
      assert multiset(rest + [last]) == multiset(rest) + multiset{last};
      WithoutCounts(ids[..|ids| - 1], payer, x);
    }
  }

  /** The member ids of a batch of split rows, in order. */
  function Members(rows: seq<ExpenseSplit>): (ids: seq<int>)
    ensures |ids| == |rows|
  {
    seq(|rows|, k requires 0 <= k < |rows| => rows[k].memberId)
  }

  function OwedOf(s: ExpenseSplit): real {
    s.owedAmount
  }

  /** The total owed by a batch of split rows. */
  function SumOwed(rows: seq<ExpenseSplit>): real {
    Sum(rows, OwedOf)
  }

  /** One unsaved row owing `share` for every entry of `members` that is not the payer. */
  function DebtRows(expense: Expense, members: seq<int>, share: real): (r: seq<ExpenseSplit>)
    ensures Members(r) == Without(members, expense.payerId)
    ensures forall k :: 0 <= k < |r| ==>
      r[k].splitId == UnsavedId && r[k].expenseId == expense.expenseId && r[k].owedAmount == share
    decreases |members|
  {
    if |members| == 0 then []
    else
      var last := members[|members| - 1];
      var rest := DebtRows(expense, members[..|members| - 1], share);
      if last == expense.payerId then rest else rest + [NewExpenseSplit(expense.expenseId, last, share)]
  }

  /**
   The debt rows recorded for `expense` shared equally among `memberIds`.
   Nothing is recorded for an empty list or a non-positive amount. The share
   is the amount divided by the whole list length, the payer included when
   listed, but the payer never gets a row.
   */
  function EqualSplit(expense: Expense, memberIds: seq<int>): (r: seq<ExpenseSplit>)
    ensures |memberIds| == 0 || expense.amount <= 0.0 ==> r == []
    ensures |memberIds| > 0 && expense.amount > 0.0 ==> Members(r) == Without(memberIds, expense.payerId)
    ensures |memberIds| > 0 && expense.amount > 0.0 ==> |r| == |memberIds| - Count(memberIds, expense.payerId)
    ensures forall k :: 0 <= k < |r| ==> r[k].memberId != expense.payerId
    ensures forall k :: 0 <= k < |r| ==> r[k].expenseId == expense.expenseId && r[k].splitId == UnsavedId
    ensures forall k :: 0 <= k < |r| ==> r[k].owedAmount == MathOperations.CalculateSplit(expense.amount, |memberIds|)
  {
    if |memberIds| == 0 || expense.amount <= 0.0 then []
    else
      var r := DebtRows(expense, memberIds, MathOperations.CalculateSplit(expense.amount, |memberIds|));
      assert forall k :: 0 <= k < |r| ==> r[k].memberId == Members(r)[k];
      r
  }

  /**
   The loop that fills the insert batch: one row per list entry that is not
   the payer. It builds exactly the rows of the equal-split rule.
   */
  method SplitExpenseAndRecordDebts(expense: Expense, memberIds: seq<int>) returns (batch: seq<ExpenseSplit>)
    ensures batch == EqualSplit(expense, memberIds)
  {
    if |memberIds| == 0 || expense.amount <= 0.0 {
      return [];
    }
    var splitAmount := MathOperations.CalculateSplit(expense.amount, |memberIds|);
    batch := [];
    var i := 0;
    while i < |memberIds|
      invariant 0 <= i <= |memberIds|
      invariant batch == DebtRows(expense, memberIds[..i], splitAmount)
    {
      var memberId := memberIds[i];
      assert memberIds[..i + 1][..i] == memberIds[..i];
      if memberId != expense.payerId {
        batch := batch + [NewExpenseSplit(expense.expenseId, memberId, splitAmount)];
      }
      i := i + 1;
    }
    assert memberIds[..i] == memberIds;
  }

  lemma {:induction false} SumOwedConstant(rows: seq<ExpenseSplit>, share: real)
    requires forall k :: 0 <= k < |rows| ==> rows[k].owedAmount == share
    ensures SumOwed(rows) == |rows| as real * share
    decreases |rows|
  {
    if |rows| > 0 {
      var rows' := rows[..|rows| - 1];
      assert forall k :: 0 <= k < |rows'| ==> rows'[k] == rows[k];
      SumOwedConstant(rows', share);
    }
  }

  /**
   Rows that each owe an equal share of `amount` among `n` people, one row
   for each of `n - c` of them, owe `(n - c) / n` of the amount: all of it
   exactly when `c` is zero.
   */
  lemma SharesTotal(rows: seq<ExpenseSplit>, amount: real, n: nat, c: nat)
    requires n > 0 && amount > 0.0 && |rows| + c == n
    requires forall k :: 0 <= k < |rows| ==> rows[k].owedAmount == MathOperations.CalculateSplit(amount, n)
    ensures SumOwed(rows) * n as real == amount * (n - c) as real
    ensures SumOwed(rows) == amount <==> c == 0
  {
    var share := MathOperations.CalculateSplit(amount, n);
    SumOwedConstant(rows, share);
    var total := SumOwed(rows);
    var k := (n - c) as real;
    assert total == k * share;
    assert share * n as real == amount;
    assert total * n as real == k * (share * n as real);
    if total == amount {
      assert amount * n as real == amount * k;
    }
  }

  /**
   The rows of an equal split add up to the whole amount exactly when the
   payer is not in the list: a listed payer's share is counted in the divisor
   but owed by nobody. (How much they add up to is `SharesTotal`.)
   */
  lemma EqualSplitTotal(expense: Expense, memberIds: seq<int>)
    requires |memberIds| > 0 && expense.amount > 0.0
    ensures SumOwed(EqualSplit(expense, memberIds)) == expense.amount <==> expense.payerId !in memberIds
  {
    SharesTotal(EqualSplit(expense, memberIds), expense.amount, |memberIds|, Count(memberIds, expense.payerId));
    assert expense.payerId in memberIds <==> Count(memberIds, expense.payerId) > 0;
  }

  lemma {:induction false} WithoutOnlyPayer(ids: seq<int>, payer: int)
    requires forall k :: 0 <= k < |ids| ==> ids[k] == payer
    ensures Without(ids, payer) == []
    decreases |ids|
  {
    if |ids| > 0 {
      WithoutOnlyPayer(ids[..|ids| - 1], payer);
    }
  }

  /** A list that holds only the payer yields no rows. */
  lemma OnlyPayerYieldsNothing(expense: Expense, memberIds: seq<int>)
    requires forall k :: 0 <= k < |memberIds| ==> memberIds[k] == expense.payerId
    ensures EqualSplit(expense, memberIds) == []
  {
    if |memberIds| > 0 && expense.amount > 0.0 {
      WithoutOnlyPayer(memberIds, expense.payerId);
      assert |Members(EqualSplit(expense, memberIds))| == 0;
    }
  }

  /**
   The rows of the split table that belong to one expense, in table order.
   The database query has no ORDER BY; the balances built from these rows are
   proved not to depend on their order.
   */
  function ListExpenseSplits(table: seq<ExpenseSplit>, expenseId: int): (r: seq<ExpenseSplit>)
    ensures forall s :: s in r <==> s in table && s.expenseId == expenseId
    ensures forall s :: Count(r, s) == if s.expenseId == expenseId then Count(table, s) else 0
    decreases |table|
  {
    if |table| == 0 then []
    else
      var last := table[|table| - 1];
      assert table == table[..|table| - 1] + [last];
      var rest := ListExpenseSplits(table[..|table| - 1], expenseId);
      if last.expenseId == expenseId then rest + [last] else rest
  }

  /** Reordering the split table reorders, but does not otherwise change, what is listed. */
  lemma ListExpenseSplitsPermutation(table: seq<ExpenseSplit>, table': seq<ExpenseSplit>, expenseId: int)
    requires multiset(table) == multiset(table')
    ensures multiset(ListExpenseSplits(table, expenseId)) == multiset(ListExpenseSplits(table', expenseId))
  {
    var r := ListExpenseSplits(table, expenseId);
    var r' := ListExpenseSplits(table', expenseId);
    forall s ensures multiset(r)[s] == multiset(r')[s] {
      assert Count(r, s) == Count(r', s);
    }
  }

  /** A table whose rows all belong to one expense is listed whole, in order, for that expense. */
  lemma {:induction false} ListExpenseSplitsOfOneExpense(table: seq<ExpenseSplit>, expenseId: int)
    requires forall k :: 0 <= k < |table| ==> table[k].expenseId == expenseId
    ensures ListExpenseSplits(table, expenseId) == table
    decreases |table|
  {
    if |table| > 0 {
      var prefix := table[..|table| - 1];
      assert forall k :: 0 <= k < |prefix| ==> prefix[k] == table[k];
      ListExpenseSplitsOfOneExpense(prefix, expenseId);
      assert table == prefix + [table[|table| - 1]];
    }
  }
}

=== FILE: folds.dfy ===
/**
 Sums over sequences and over the values of a finite map, with the facts the
 ledger needs: a sum splits over concatenation, it does not depend on the
 order of its terms, and the total of a map moves by exactly the amount added
 to one of its entries.
 */
module Folds {

  /** The sum of `f` over `xs`, adding the last term last. */
  function Sum<T>(xs: seq<T>, f: T -> real): real
    decreases |xs|
  {
    if |xs| == 0 then 0.0 else Sum(xs[..|xs| - 1], f) + f(xs[|xs| - 1])
  }

  lemma {:induction false} SumConcat<T>(xs: seq<T>, ys: seq<T>, f: T -> real)
    ensures Sum(xs + ys, f) == Sum(xs, f) + Sum(ys, f)
    decreases |ys|
  {
    if |ys| == 0 {
      assert xs + ys == xs;
    } else {
      var ys' := ys[..|ys| - 1];
      assert (xs + ys)[..|xs + ys| - 1] == xs + ys';
      SumConcat(xs, ys', f);
    }
  }

  /** Sums of two functions that agree on every term are equal. */
  lemma {:induction false} SumCongruent<T>(xs: seq<T>, f: T -> real, g: T -> real)
    requires forall k :: 0 <= k < |xs| ==> f(xs[k]) == g(xs[k])
    ensures Sum(xs, f) == Sum(xs, g)
    decreases |xs|
  {
    if |xs| > 0 {
      var xs' := xs[..|xs| - 1];
      assert forall k :: 0 <= k < |xs'| ==> xs'[k] == xs[k];
      SumCongruent(xs', f, g);
    }
  }

  /** Removing the term at position `i` lowers the sum by exactly that term. */
  lemma SumRemoveAt<T>(xs: seq<T>, i: nat, f: T -> real)
    requires i < |xs|
    ensures Sum(xs, f) == Sum(xs[..i] + xs[i + 1..], f) + f(xs[i])
  {
    var before, x, after := xs[..i], xs[i], xs[i + 1..];
    calc {
      Sum(xs, f);
      { assert xs == (before + [x]) + after; }
      Sum((before + [x]) + after, f);
      { SumConcat(before + [x], after, f); }
      Sum(before + [x], f) + Sum(after, f);
      { assert (before + [x])[..|before|] == before; }
      Sum(before, f) + f(x) + Sum(after, f);
      { SumConcat(before, after, f); }
      Sum(before + after, f) + f(x);
    }
  }

  /** Sums are invariant under permutation of their terms. */
  lemma {:induction false} SumPermutation<T>(xs: seq<T>, ys: seq<T>, f: T -> real)
    requires multiset(xs) == multiset(ys)
    ensures Sum(xs, f) == Sum(ys, f)
    decreases |xs|
  {
    if |xs| == 0 {
      assert |ys| == |multiset(ys)| == 0;
    } else {
      var x := xs[|xs| - 1];
      var xs' := xs[..|xs| - 1];
      assert xs == xs' + [x];
      assert x in multiset(ys);
      var i :| 0 <= i < |ys| && ys[i] == x;
      var ys' := ys[..i] + ys[i + 1..];
      assert ys == ys[..i] + [x] + ys[i + 1..];
      assert multiset(ys) == multiset(ys') + multiset{x};
      assert multiset(xs) == multiset(xs') + multiset{x};
      assert multiset(xs') == multiset(xs) - multiset{x};
      assert multiset(ys') == multiset(ys) - multiset{x};
      SumPermutation(xs', ys', f);
      SumRemoveAt(ys, i, f);
    }
  }

  /** If every term is non-negative, so is the sum, and it is zero exactly when every term is. */
  lemma {:induction false} SumNonNegative<T>(xs: seq<T>, f: T -> real)
    requires forall k :: 0 <= k < |xs| ==> f(xs[k]) >= 0.0
    ensures Sum(xs, f) >= 0.0
    ensures Sum(xs, f) == 0.0 <==> forall k :: 0 <= k < |xs| ==> f(xs[k]) == 0.0
    decreases |xs|
  {
    if |xs| > 0 {
      var xs' := xs[..|xs| - 1];
      assert forall k :: 0 <= k < |xs'| ==> xs'[k] == xs[k];
      SumNonNegative(xs', f);
    }
  }

  /** The number of occurrences of `x` in `xs`. */
  function Count<T(==)>(xs: seq<T>, x: T): nat
  {
    multiset(xs)[x]
  }

  /** A set of positive size has an element. */
  lemma HasElement<T>(s: set<T>)
    requires s != {}
    ensures exists x :: x in s
  {
    if forall x :: x !in s {
      assert false;
    }
  }

  /** Some element of a non-empty set. */
  ghost function Pick<K>(keys: set<K>): (k: K)
    requires keys != {}
    ensures k in keys
  {
    HasElement(keys);
    var k :| k in keys; k
  }

  /** The total of the values of `m` at `keys`. */
  ghost function TotalOver<K>(m: map<K, real>, keys: set<K>): real
    requires keys <= m.Keys
    decreases keys
  {
    if keys == {} then 0.0
    else
      var k := Pick(keys);
      m[k] + TotalOver(m, keys - {k})
  }

  /** The total of all values of a finite map. */
  ghost function Total<K>(m: map<K, real>): real {
    TotalOver(m, m.Keys)
  }

  /** The total does not depend on which key is taken out first. */
  lemma {:induction false} TotalOverRemove<K>(m: map<K, real>, keys: set<K>, k: K)
    requires keys <= m.Keys && k in keys
    ensures TotalOver(m, keys) == m[k] + TotalOver(m, keys - {k})
    decreases keys
  {
    var j := Pick(keys);
    if j != k {
      TotalOverRemove(m, keys - {j}, k);
      TotalOverRemove(m, keys - {k}, j);
      assert keys - {j} - {k} == keys - {k} - {j};
    }
  }

  /** Only the values at `keys` matter. */
  lemma {:induction false} TotalOverAgree<K>(m: map<K, real>, m': map<K, real>, keys: set<K>)
    requires keys <= m.Keys && keys <= m'.Keys
    requires forall k :: k in keys ==> m[k] == m'[k]
    ensures TotalOver(m, keys) == TotalOver(m', keys)
    decreases keys
  {
    if keys != {} {
      TotalOverAgree(m, m', keys - {Pick(keys)});
    }
  }

  /** Add `v` to the entry at `k`, creating it with value `v` when absent. */
  function AddTo<K>(m: map<K, real>, k: K, v: real): map<K, real> {
    m[k := (if k in m then m[k] else 0.0) + v]
  }

  /** Adding `v` to one entry adds `v` to the total. */
  lemma TotalUpdate<K>(m: map<K, real>, k: K, v: real)
    ensures Total(AddTo(m, k, v)) == Total(m) + v
  {
    var m' := AddTo(m, k, v);
    TotalOverRemove(m', m'.Keys, k);
    if k in m {
      TotalOverRemove(m, m.Keys, k);
      assert m'.Keys == m.Keys;
      TotalOverAgree(m, m', m.Keys - {k});
    } else {
      assert m'.Keys - {k} == m.Keys;
      TotalOverAgree(m, m', m.Keys);
    }
  }
}

=== FILE: math_operations.dfy ===
/**
 The arithmetic helpers: 32-bit integer add, subtract and multiply, which wrap
 around in two's complement as Java `int` arithmetic does, and the two
 division helpers on amounts, which return zero instead of failing.
 */
module MathOperations {

  const Modulus: int := 0x1_0000_0000
  const HalfModulus: int := 0x8000_0000

  /** A Java `int`. */
  newtype int32 = x: int | -0x8000_0000 <= x < 0x8000_0000

  predicate InInt32Range(x: int) {
    -HalfModulus <= x < HalfModulus
  }

  /** The `int32` congruent to `x` modulo 2^32: two's-complement truncation. */
  function Wrap(x: int): (r: int32)
    ensures (x - r as int) % Modulus == 0
    ensures InInt32Range(x) ==> r as int == x
  {
    (((x + HalfModulus) % Modulus) - HalfModulus) as int32
  }

  /** Two `int`s that agree modulo 2^32 wrap to the same `int32`. */
  lemma WrapCongruent(x: int, y: int)
    requires (x - y) % Modulus == 0
    ensures Wrap(x) == Wrap(y)
  {
    var k := (x - y) / Modulus;
    assert x == y + k * Modulus;
    assert (x + HalfModulus) % Modulus == (y + HalfModulus) % Modulus;
  }

  function Add(a: int32, b: int32): (r: int32)
    ensures (a as int + b as int - r as int) % Modulus == 0
    ensures InInt32Range(a as int + b as int) ==> r as int == a as int + b as int
  {
    Wrap(a as int + b as int)
  }

  function Subtract(a: int32, b: int32): (r: int32)
    ensures (a as int - b as int - r as int) % Modulus == 0
    ensures InInt32Range(a as int - b as int) ==> r as int == a as int - b as int
  {
    Wrap(a as int - b as int)
  }

  function Multiply(a: int32, b: int32): (r: int32)
    ensures (a as int * b as int - r as int) % Modulus == 0
    ensures InInt32Range(a as int * b as int) ==> r as int == a as int * b as int
  {
    Wrap(a as int * b as int)
  }

  /** Subtracting what was added gives back the original, overflow or not. */
  lemma SubtractUndoesAdd(a: int32, b: int32)
    ensures Subtract(Add(a, b), b) == a
  {
    var s := Add(a, b);
    var k := (a as int + b as int - s as int) / Modulus;
    assert a as int + b as int - s as int == k * Modulus;
    assert (s as int - b as int - a as int) % Modulus == 0 by {
      assert s as int - b as int - a as int == (-k) * Modulus;
    }
    WrapCongruent(s as int - b as int, a as int);
  }

  /** Division that yields zero for a zero denominator. */
  function Divide(numerator: real, denominator: real): (r: real)
    ensures denominator == 0.0 ==> r == 0.0
    ensures denominator != 0.0 ==> r * denominator == numerator
  {
    if denominator == 0.0 then 0.0 else numerator / denominator
  }

  /** The equal share of `totalAmount` among `numPeople`; zero when there is nobody. */
  function CalculateSplit(totalAmount: real, numPeople: int): (r: real)
    ensures numPeople <= 0 ==> r == 0.0
    ensures numPeople > 0 ==> r * numPeople as real == totalAmount
  {
    if numPeople <= 0 then 0.0 else totalAmount / numPeople as real
  }

  /** Dividing by one is the identity. */
  lemma DivideByOne(x: real)
    ensures Divide(x, 1.0) == x
  {
  }

  /** For a positive head count the split helper is the division helper. */
  lemma CalculateSplitIsDivide(totalAmount: real, numPeople: int)
    requires numPeople > 0
    ensures CalculateSplit(totalAmount, numPeople) == Divide(totalAmount, numPeople as real)
  {
  }
}

=== FILE: records.dfy ===
/**
 The immutable records of the expense splitter: an expense, one debt row of
 an expense split, and a settlement between two users. Every field of the
 Java classes is final, so each record is a datatype value; the datatype
 constructor is the "retrieved from the database" constructor that is given
 every field, and the functions below are the "new record" constructors that
 have no database id yet.
 */
module Records {

  /** A calendar date (`LocalDate`), kept opaque: as days since an epoch. */
  type Day = int

  /** A point in time (`LocalDateTime`), kept opaque: as seconds since an epoch. */
  type Instant = int

  /** The id a record carries before the database has assigned one. */
  const UnsavedId: int := -1

  datatype Expense = Expense(
    expenseId: int,
    amount: real,
    description: string,
    payerId: int,
    date: Day)

  datatype ExpenseSplit = ExpenseSplit(
    splitId: int,
    expenseId: int,
    memberId: int,
    owedAmount: real)

  datatype Settlement = Settlement(
    settlementId: int,
    groupId: int,
    payerId: int,
    receiverId: int,
    amount: real,
    settlementDate: Instant)

  /** An expense created before it has an id. */
  function NewExpense(amount: real, description: string, payerId: int, date: Day): (e: Expense)
    ensures e.expenseId == UnsavedId
    ensures e.amount == amount && e.description == description
    ensures e.payerId == payerId && e.date == date
  {
    Expense(UnsavedId, amount, description, payerId, date)
  }

  /** A split row created for saving, before it has an id. */
  function NewExpenseSplit(expenseId: int, memberId: int, owedAmount: real): (s: ExpenseSplit)
    ensures s.splitId == UnsavedId
    ensures s.expenseId == expenseId && s.memberId == memberId && s.owedAmount == owedAmount
  {
    ExpenseSplit(UnsavedId, expenseId, memberId, owedAmount)
  }

  /**
   A settlement created before it is saved. The Java constructor reads the
   clock; here the current time is the parameter `now`.
   */
  function NewSettlement(groupId: int, payerId: int, receiverId: int, amount: real, now: Instant): (s: Settlement)
    ensures s.settlementId == UnsavedId
    ensures s.groupId == groupId && s.payerId == payerId
    ensures s.receiverId == receiverId && s.amount == amount
    ensures s.settlementDate == now
  {
    Settlement(UnsavedId, groupId, payerId, receiverId, amount, now)
  }

  /**
   Re-creating an expense with the id the database assigned (what the demo
   does after saving) changes the id and nothing else; the new-expense
   constructor is the retrieval constructor with the unsaved id. Both hold
   by construction, since the retrieval constructor is the datatype's own.
   */
  lemma WithAssignedId(amount: real, description: string, payerId: int, date: Day, id: int)
    ensures var e := NewExpense(amount, description, payerId, date);
      && Expense(id, e.amount, e.description, e.payerId, e.date).expenseId == id
      && Expense(id, e.amount, e.description, e.payerId, e.date) == e.(expenseId := id)
      && e == Expense(UnsavedId, amount, description, payerId, date)
  {
  }

  /**
   A split row read back with its database id is the saved row with that id
   and nothing else changed; holds by construction, like `WithAssignedId`.
   */
  lemma SplitWithAssignedId(expenseId: int, memberId: int, owedAmount: real, id: int)
    ensures var s := NewExpenseSplit(expenseId, memberId, owedAmount);
      && ExpenseSplit(id, expenseId, memberId, owedAmount).splitId == id
      && ExpenseSplit(id, expenseId, memberId, owedAmount) == s.(splitId := id)
  {
  }

  /**
   A settlement read back with its database id and stored time is the saved
   settlement with that id; holds by construction, like `WithAssignedId`.
   */
  lemma SettlementWithAssignedId(groupId: int, payerId: int, receiverId: int, amount: real, now: Instant, id: int)
    ensures var s := NewSettlement(groupId, payerId, receiverId, amount, now);
      && Settlement(id, groupId, payerId, receiverId, amount, now).settlementId == id
      && Settlement(id, groupId, payerId, receiverId, amount, now) == s.(settlementId := id)
  {
  }
}

=== FILE: string_utility.dfy ===
/** String reversal, with `null` passed through. Strings are character sequences. */
module StringUtility {
  import opened Wrappers

  /** The characters of `s` in reverse order. */
  function Reverse(s: string): (r: string)
    ensures |r| == |s|
    ensures forall i :: 0 <= i < |s| ==> r[i] == s[|s| - 1 - i]
    decreases |s|
  {
    if |s| == 0 then [] else [s[|s| - 1]] + Reverse(s[..|s| - 1])
  }

  /** Reversal of a nullable string: `null` in, `null` out. */
  function ReverseString(input: Option<string>): (r: Option<string>)
    ensures input.None? <==> r.None?
    ensures input.Some? ==> |r.value| == |input.value|
    ensures input.Some? ==> forall i :: 0 <= i < |input.value| ==> r.value[i] == input.value[|input.value| - 1 - i]
  {
    match input
    case None => None
    case Some(s) => Some(Reverse(s))
  }

  /** Reversing twice gives back the original string. */
  lemma {:induction false} ReverseInvolutive(s: string)
    ensures Reverse(Reverse(s)) == s
  {
    var r := Reverse(s);
    var rr := Reverse(r);
    assert |rr| == |s|;
    forall i | 0 <= i < |s|
      ensures rr[i] == s[i]
    {
      assert rr[i] == r[|r| - 1 - i];
    }
  }

  /** The same for nullable strings, and the empty string is its own reverse. */
  lemma ReverseStringInvolutive(input: Option<string>)
    ensures ReverseString(ReverseString(input)) == input
    ensures ReverseString(Some("")) == Some("")
  {
    if input.Some? {
      ReverseInvolutive(input.value);
    }
  }
}

=== FILE: wrappers.dfy ===
/** Optional values, standing in for Java's nullable references. */
module Wrappers {

  /** `None` plays the part of a Java `null`. */
  datatype Option<+T> = None | Some(value: T)
}
